=== FILE: README.md ===
# Memory-pairs round controller in Dafny

A model of the game logic in `js/jogo.js`, a browser memory ("pairs") game.
The catalog `IMAGES` holds nine items, each named by a key. `buildBoard` deals each item twice
onto a board of 18 face-down cards, in an order chosen by a Fisher–Yates
`shuffle`. The player turns two cards per turn. A 450 ms callback then
either keeps a matching pair face up or turns a mismatch back. A one-second
interval counts up to the 60-second `TIME_LIMIT`. `winGame`, `gameOver` and
`resetGame` end or restart the round.

Modules, one per concern of the source:

- `Catalog` (`catalog.dfy`): the keys of the nine catalog items, `TIME_LIMIT` and the
  number of pairs.
- `Shuffling` (`shuffling.dfy`): `shuffle`, as a loop (`Shuffle`) and as a
  reference function (`Shuffled`). It proves that the loop computes the
  function, that the result is a permutation, and that every permutation can
  be produced.
- `Deck` (`deck.dfy`): the deck expression and the per-card set-up of
  `buildBoard`.
- `TimeFormat` (`time_format.dfy`): `formatMMSS` with a parser that reads
  its output back, and the remaining-time arithmetic of `updateTimerLabel`.
- `Round` (`round.dfy`): the `state` record, the board and the pending
  resolve callbacks, plus one pure step function per event. The events are a
  card click (`onFlip`), a resolve callback firing, an interval tick and the
  reset button. `winGame` and `gameOver` are the state changes those events
  call.
- `RoundInvariant` (`round_invariant.dfy`): the round invariant and its
  preservation. It also proves the outcome of a complete turn, that a won
  round and a round lost on time are terminal, that matched cards stay
  matched, and the stale-callback anomaly.

How the source's behaviour is represented:

- The gsap rotation angle that `onFlip` reads becomes a `faceUp` flag per
  card. `flipUp` and `flipDown` set or clear it (`Round.SetFace`).
- `Math.random` becomes a sequence of choices. The loop step for index `i`
  swaps with `choices[i]`, and `choices[i]` must lie in `[0, i]`.
- `state.tick` becomes a `ticking` flag: it says whether an interval is live.
  `clearInterval` clears it and `startTimer` sets it.
- Each `setTimeout(…, 450)` becomes a `PendingResolve` in a queue, oldest
  first. It records the second card, the `match` flag computed at click time
  and the board it was scheduled on. `resetGame` never cancels these
  callbacks, so the queue survives a reset. A callback from an older board
  still changes the state record of the new round. Its `flipDown(card)` has
  no effect on the new board, because that card is no longer in the document.
- When the callback fires while `state.first` is `null`, `celebrateMatch` and
  `shakeMismatch` dereference `null` and throw a TypeError before any state
  is written. The model treats this as a callback that changes nothing. This
  happens only after a reset.
- The keys are compared as strings in the source. The nine strings are
  pairwise distinct, so the model uses a `Key` enumeration.

Behaviour kept as written:

- `winGame` locks input and stops the interval but never sets `gameOver`.
  The resolve callback then clears `lock` again (js/jogo.js:163). After a
  win, `onFlip`'s `lock` and `gameOver` guards both pass; it refuses a click
  only because every card is face up. `WonIsTerminal` proves this. In the
  page the matched cards are also `disabled` (js/jogo.js:197), so their
  clicks never reach `onFlip`; that property is left out below.
- A resolve after a timeout also clears `lock`. `onFlip` still refuses every
  click because of its `gameOver` guard. In the page `gameOver` also
  disables every card (js/jogo.js:233), so no click reaches `onFlip`; that
  property is left out below.
- The round invariant (`RoundInvariant.Inv`) holds along every run in which
  no reset happens while a resolve is pending (`RunInv`). A reset during a
  pending match breaks it: `StaleResolveCorruptsRound` turns one card of the
  new board and then shows a round with eight pairs left, no pending card and
  one face-up card.

Facts about the code that the model relies on:

- `winGame` sets neither `gameOver` nor a lasting lock (js/jogo.js:209-212,
  js/jogo.js:163).
- Callbacks scheduled before a reset are never discarded (js/jogo.js:147,
  js/jogo.js:260-277).
- The code keeps no matched flag per card. Its only per-card lock is the
  DOM `disabled` property, left out below. `RoundInvariant.Matched` derives
  a matched status from the face state: a matched card is face up and is neither the
  pending card nor the card of a resolve still to fire. The invariant adds
  that every key is on exactly two cards and that the two cards of a key are
  matched together, so matched cards come in pairs
  (`RoundInvariant.MatchedHasPartner`).

## Model

| member | source | states |
|---|---|---|
| `Catalog.CatalogKeysUnique` | js/jogo.js:4-14 | The catalog has nine entries, and every key occurs in exactly one of them. |
| `Shuffling.Swap` | js/jogo.js:40 | The destructuring swap exchanges positions i and j and leaves every other position as it was. |
| `Shuffling.StepsPermutes` | js/jogo.js:38-41 | The loop steps only permute the elements: the multiset is preserved. |
| `Shuffling.Shuffled` | js/jogo.js:37-43 | For any valid choices, the shuffled list has the input's length and the same multiset of elements. |
| `Shuffling.Shuffle` | js/jogo.js:37-43 | The countdown loop returns exactly the reference shuffle, which is a permutation of its input. |
| `Shuffling.StepsReachEveryOrder` | js/jogo.js:38-41 | Any rearrangement of the first i+1 elements is produced by the steps i..1 for some valid choices. |
| `Shuffling.ShuffleReachesEveryOrder` | js/jogo.js:37-43 | Every permutation of the input is a possible result of the shuffle for some valid choices. |
| `Shuffling.StepsCommuteWithMap` | js/jogo.js:38-41 | The loop moves elements without inspecting them, so it commutes with projecting every element. |
| `Shuffling.ShuffledCommutesWithMap` | js/jogo.js:37-43 | Projecting the shuffled list equals shuffling the projected list with the same choices. |
| `Deck.Deal` | js/jogo.js:51-81 | Each deck entry becomes one card with the entry's key, numbered by its position, face down. |
| `Deck.DoubledKeysPaired` | js/jogo.js:49 | Shuffling a list of unique keys concatenated with itself yields every key exactly twice. |
| `Deck.BuildBoard` | js/jogo.js:47-86 | The board has 2·9 = 18 cards, and card k has index k and is face down. |
| `Deck.BoardKeysPaired` | js/jogo.js:49-56 | Every catalog key is on exactly two cards of a freshly built board. |
| `Deck.AtMostTwoAlike` | js/jogo.js:49 | On a board where every key is on exactly two cards, as the doubled catalog deals it, no three distinct cards share a key. |
| `Deck.PartnerExists` | js/jogo.js:49 | On a board where every key is on exactly two cards, every card has another card with its key. |
| `TimeFormat.Decimal` | js/jogo.js:91-92 | `String(n)` is a non-empty digit string, of length one exactly when n < 10, whose first digit is `0` only for n = 0. With `DecimalRoundTrip` this fixes it as the decimal numeral. |
| `TimeFormat.DecimalRoundTrip` | js/jogo.js:91-92 | Reading the decimal representation of n back gives n. |
| `TimeFormat.PadStart` | js/jogo.js:91-92 | `padStart` returns max(length, width) characters: fill characters followed by the original string. |
| `TimeFormat.LeadingZeros` | js/jogo.js:91-92 | Zero padding in front of a digit string does not change the number it denotes. |
| `TimeFormat.JoinClock` | js/jogo.js:93 | Joining the fields with `:` gives a string whose minutes and seconds fields are exactly the joined parts. |
| `TimeFormat.FormatMMSS` | js/jogo.js:90-94 | The label is digits, a colon and two digits. It has the form DD:DD exactly when total < 6000. |
| `TimeFormat.FormatRoundTrip` | js/jogo.js:90-94 | The minutes field reads back as total / 60 and the seconds field as total % 60 < 60, so 60·MM + SS == total; parsing the label gives total. |
| `TimeFormat.Remaining` | js/jogo.js:99 | `max(0, TIME_LIMIT - elapsed)` lies in [0, 60]. It is 60 - elapsed up to the limit and 0 from the limit on. |
| `TimeFormat.TimerLabel` | js/jogo.js:98-101 | The timer text is always 12 characters, starts with `Tempo: `, and its clock reads back as the remaining seconds. |
| `Round.NewRoundState` | js/jogo.js:262-270 | A new round has no pending card, no lock, nine pairs left, no moves, zero seconds, is not over, and its interval runs. |
| `Round.SetFace` | js/jogo.js:171-181 | `flipUp`/`flipDown` change only the face of the one card, keeping its key and index. |
| `Round.WinGame` | js/jogo.js:209-212 | After a timeout `winGame` changes nothing. Otherwise it stops the interval and locks input, without setting `gameOver`. |
| `Round.GameOver` | js/jogo.js:228-231 | `gameOver` sets `gameOver`, locks input and stops the interval, leaving the counters alone. |
| `Round.OnFlip` | js/jogo.js:120-146 | A click changes nothing when locked, over or on a face-up card. Otherwise the card turns up. With no pending card it becomes pending and no move counts. As a second card it locks input, adds one move and schedules a resolve whose match flag holds iff the keys agree and the cards differ. |
| `Round.Resolve` | js/jogo.js:147-164 | With no pending card the callback changes nothing. Otherwise it clears `first` and `lock`. A match keeps the board, decrements `pairsLeft` and stops the interval exactly when zero is reached before a timeout. A mismatch turns the pending card down, and the second card too if still on the board, each keeping its key and index, and leaves every other card as it was. |
| `Round.Tick` | js/jogo.js:109-115 | Without a live interval nothing happens. Otherwise `seconds` grows by one. The first tick at or past 60 before a timeout sets `gameOver` and `lock` and stops the interval; any other tick changes only `seconds`. |
| `Round.ResetGame` | js/jogo.js:260-277 | Reset installs a new round state and a freshly built board, and keeps the pending callbacks queued against the old board. |
| `Round.Start` | js/jogo.js:285-286 | The page starts with a new round state, a freshly built board and no pending callback. |
| `Round.Step` | js/jogo.js:83-164 | Dispatches one event: a card click (listener at js/jogo.js:83; a position off the board is a no-op), the 450 ms callback, the interval body (js/jogo.js:109-115), or the reset button (js/jogo.js:281). Every event keeps `Valid`: the pending card and every callback of the current board name a card on it. |
| `Round.Run` | js/jogo.js:83-281 | Applies a sequence of events in order; every run keeps `Valid`. |
| `RoundInvariant.StartInv` | js/jogo.js:285-286 | The first board satisfies the round invariant. |
| `RoundInvariant.ResetInv` | js/jogo.js:260-277 | Without a pending callback, reset yields an all-face-down board and the default field values, and satisfies the invariant. |
| `RoundInvariant.FlipInv` | js/jogo.js:120-146 | A click keeps the round invariant. |
| `RoundInvariant.FlipKeepsMatched` | js/jogo.js:127-146 | A click never changes which cards are matched: the card it turns becomes the pending card or the card of the new resolve. |
| `RoundInvariant.ResolveInv` | js/jogo.js:147-164 | A resolve keeps the round invariant, in particular `pairsLeft` never drops below zero. |
| `RoundInvariant.ResolveMatchPairs` | js/jogo.js:147-156 | A match resolve makes the pending card and the second card matched together, and no third card shares their key, so the cards of each key stay matched together. |
| `RoundInvariant.ResolveMismatchKeepsMatched` | js/jogo.js:157-161 | A mismatch resolve turns both its cards down, so exactly the same cards are matched afterwards. |
| `RoundInvariant.TickInv` | js/jogo.js:109-115 | A tick keeps the invariant: seconds never pass 60, and `gameOver` holds exactly when they reach 60. |
| `RoundInvariant.StepInv` | js/jogo.js:109-164 | Every event keeps the invariant, except a reset while a resolve is pending. |
| `RoundInvariant.RunInv` | js/jogo.js:260-286 | Any event sequence that never resets under a pending resolve keeps the invariant. |
| `RoundInvariant.TurnOutcome` | js/jogo.js:138-164 | A second click counts one move and locks. Its resolve keeps both cards up and decrements `pairsLeft` iff the keys agree, and otherwise turns both down with `pairsLeft` unchanged. Either way it clears `first` and `lock`, and the interval stops exactly when no pair is left. |
| `RoundInvariant.WonIsTerminal` | js/jogo.js:209-212 | Once no pair is left without a timeout, all cards are up and nothing is pending. The interval is stopped, and every event but reset changes nothing, so a timeout can no longer happen. |
| `RoundInvariant.TimedOutIsTerminal` | js/jogo.js:228-231 | After a timeout `gameOver` stays set, the interval stays stopped at 60 seconds, no move is counted and clicks change nothing. |
| `RoundInvariant.MatchedStaysMatched` | js/jogo.js:147-164 | A card of a matched pair is never turned back or made pending again before the next reset. |
| `RoundInvariant.MatchedHasPartner` | js/jogo.js:147-164 | Under the invariant every matched card has a distinct matched card with the same key. |
| `RoundInvariant.StepKeepsKeys` | js/jogo.js:56-57 | In every game, an event other than a reset keeps the number of cards and every card's key and index, including when a callback from an older board fires. |
| `RoundInvariant.StepKeepsPositions` | js/jogo.js:57 | Under the round invariant, card k still has index k after any event other than a reset. |
| `RoundInvariant.ResetDealsFaceDown` | js/jogo.js:260-277 | Any reset, pending callbacks or not, deals 18 cards with none face up and keeps the pending callbacks. |
| `RoundInvariant.StaleResolveOnFreshRound` | js/jogo.js:120-164 | On a fresh round holding a stale match callback, one click and the callback firing leave eight pairs left, no pending card and one face-up card, which breaks the invariant. |
| `RoundInvariant.StaleResolveCorruptsRound` | js/jogo.js:147-164 | A reset during a pending match resolve, then a click on card 0, then the old callback firing: the new round has eight pairs left and breaks the invariant. |

## Left out

- DOM construction, the aria labels, the live-region texts, the move
  counter text, and the win and timeout overlays (js/jogo.js:17-22,
  js/jogo.js:52-84, js/jogo.js:214-223, js/jogo.js:233-255). They are
  presentation only.
- gsap animations (js/jogo.js:171-205): durations, easing and the
  rotation angle are reduced to the `faceUp` flag.
- Round.OnFlip: turns a card face up at click time. The source decides
  whether a card is face up from its animated rotation angle
  (js/jogo.js:123-125), and `flipUp` is a 0.35 s tween (js/jogo.js:173). A
  second click on the pending card within the first moments of that tween
  therefore reads it as face down. It passes the guard at js/jogo.js:127 and
  completes a turn with the card itself: input locks, one move is counted,
  `match` is false because `state.first !== card`, and 450 ms later the card
  turns back down. The model has no animation time, so it treats that click
  as a click on a face-up card and ignores it. The `f != i` conjunct of the
  match flag is therefore never false in the model.
- The `disabled` property that `celebrateMatch`, `shakeMismatch` and
  `gameOver` set. Cards disabled by a match are face up and rejected by
  `onFlip` anyway. Cards disabled by `gameOver` are rejected by its flag. The
  shake window depends on animation timing.
- Audio lookup and playback (js/jogo.js:130-136): a fire-and-forget browser
  call with no effect on the state.
- Wall-clock timing. `setInterval` and `setTimeout` become discrete events
  that may arrive in any order. The model does not enforce that a resolve
  fires within 450 ms, or before the next tick.
- `shuffle` permutes its array in place and returns that same array
  (js/jogo.js:37-43). `Shuffling.Shuffle` returns a new sequence instead.
  Its only caller passes a fresh array and uses the result (js/jogo.js:49),
  so no aliasing is lost.
- `Math.random`: replaced by an explicit choice sequence. Uniformity of the
  shuffle is not modelled; only that every ordering is reachable.
- The `playBtn` handler (js/jogo.js:282): it rebuilds the board and restarts
  the timer without resetting `state`.
- The `src`, `alt` and `sound` strings of each catalog item
  (js/jogo.js:5-13): they only feed the DOM and the audio player, so an item
  is represented by its key. `Shuffling.ShuffledCommutesWithMap` shows that
  shuffling the items and then taking their keys gives the same board as
  shuffling the keys.
- JavaScript numbers are doubles. The counters here stay far below 2^53,
  so they are modelled as unbounded integers. For the same reason
  `TimeFormat.Decimal` gives plain digits for every number, whereas
  `String(n)` switches to exponent notation from 1e21.
- `TimeFormat.ParseMMSS` is not part of the game. It exists to state the
  round trip of `formatMMSS`.

=== FILE: catalog.dfy ===
/** The fixed card catalog and the round's time limit (js/jogo.js:1-14). */
module Catalog {

  /** Seconds a round lasts before it is lost on time. */
  const TIME_LIMIT: nat := 60

  /** The catalog keys. The source compares them as strings; the nine strings
      are pairwise distinct, so comparing constructors is the same test. */
  datatype Key =
    | BallerinaCapuccina
    | BrrBrrPatapim
    | CappuccinoAssassino
    | ChimpanziniBananini
    | EspressoSignora
    | LiliriLalira
    | TralaleroTralala
    | TungTungSahur
    | OdinDinDun

  /** The catalog `IMAGES`, one entry per item, in catalog order. Each
      item's `src`, `alt` and `sound` only feed the DOM and the audio player,
      so an item is represented by its key. */
  const IMAGES: seq<Key> := [
    BallerinaCapuccina, BrrBrrPatapim, CappuccinoAssassino, ChimpanziniBananini,
    EspressoSignora, LiliriLalira, TralaleroTralala, TungTungSahur, OdinDinDun
  ]

  /** Number of pairs on a board, the initial `pairsLeft` (`IMAGES.length`;
      see CatalogKeysUnique). */
  const PAIRS: nat := 9

  /** In a list without repetitions, each listed value occurs once. */
  lemma {:induction false} DistinctOccursOnce<T>(s: seq<T>, x: T)
    requires forall i, j :: 0 <= i < j < |s| ==> s[i] != s[j]
    requires x in s
    ensures multiset(s)[x] == 1
  {
    assert s == [s[0]] + s[1..];
    if s[0] == x {
      assert x !in s[1..];
    } else {
      DistinctOccursOnce(s[1..], x);
    }
  }

  /** Every key names exactly one catalog item, and the catalog has nine of them. */
  lemma CatalogKeysUnique()
    ensures |IMAGES| == PAIRS
    ensures forall key: Key :: multiset(IMAGES)[key] == 1
  {
    var keys := IMAGES;
    assert forall i, j :: 0 <= i < j < |keys| ==> keys[i] != keys[j];
    forall key: Key
      ensures multiset(keys)[key] == 1
    {
      assert key in keys by {
        match key
        case BallerinaCapuccina =>
        case BrrBrrPatapim =>
        case CappuccinoAssassino =>
        case ChimpanziniBananini =>
        case EspressoSignora =>
        case LiliriLalira =>
        case TralaleroTralala =>
        case TungTungSahur =>
        case OdinDinDun =>
      }
      DistinctOccursOnce(keys, key);
    }
  }
}

=== FILE: deck.dfy ===
/** The deck expression and per-card set-up of `buildBoard` (js/jogo.js:47-86),
    without the DOM. */
module Deck {
  import opened Catalog
  import opened Shuffling

  /** One card button: its catalog key (`dataset.symbol`), its board position
      (`dataset.index`) and whether its face shows. The gsap rotation angle of
      the source is abstracted to the `faceUp` flag. */
  datatype Card = Card(symbol: Key, index: nat, faceUp: bool)

  /** Number of cards on a board. */
  const BOARD_SIZE: nat := 18

  /** The keys of a board, in board order. */
  function Symbols(board: seq<Card>): (r: seq<Key>)
    ensures |r| == |board|
    ensures forall k :: 0 <= k < |board| ==> r[k] == board[k].symbol
  {
    seq(|board|, k requires 0 <= k < |board| => board[k].symbol)
  }

  /** One face-down card per deck entry, numbered by its position
      (js/jogo.js:51-57 and the initial rotation at js/jogo.js:81). */
  function Deal(deck: seq<Key>): (board: seq<Card>)
    ensures |board| == |deck|
    ensures Symbols(board) == deck
    ensures forall k :: 0 <= k < |board| ==> board[k].index == k && !board[k].faceUp
  {
    var board := seq(|deck|, k requires 0 <= k < |deck| => Card(deck[k], k, false));
    assert Symbols(board) == deck;
    board
  }

  /** `shuffle([...IMAGES, ...IMAGES])` dealt as a board: 18 face-down cards
      numbered 0..17. */
  function BuildBoard(choices: seq<nat>): (board: seq<Card>)
    requires ValidChoices(choices, BOARD_SIZE)
    ensures |board| == BOARD_SIZE == 2 * PAIRS
    ensures forall k :: 0 <= k < |board| ==> board[k].index == k && !board[k].faceUp
  {
    CatalogKeysUnique();
    Deal(Shuffled(IMAGES + IMAGES, choices))
  }

  /** Every key is on exactly two cards of the board. */
  predicate KeysPaired(board: seq<Card>) {
    forall key: Key :: multiset(Symbols(board))[key] == 2
  }

  /** Every key is on exactly two cards of a freshly built board. */
  lemma BoardKeysPaired(choices: seq<nat>)
    requires ValidChoices(choices, BOARD_SIZE)
    ensures forall key: Key :: multiset(Symbols(BuildBoard(choices)))[key] == 2
    ensures KeysPaired(BuildBoard(choices))
  {
    CatalogKeysUnique();
    DoubledKeysPaired(IMAGES, choices);
  }

  /** Doubling a list whose keys are unique and shuffling the result gives
      every key exactly twice: shuffling only permutes. */
  lemma DoubledKeysPaired(images: seq<Key>, choices: seq<nat>)
    requires ValidChoices(choices, 2 * |images|)
    requires forall key: Key :: multiset(images)[key] == 1
    ensures forall key: Key :: multiset(Shuffled(images + images, choices))[key] == 2
  {
  }

  /** A value found at the positions of idx occurs at least |idx| times. */
  lemma {:induction false} OccurrencesAtLeast<T>(s: seq<T>, x: T, idx: set<nat>)
    requires forall i :: i in idx ==> i < |s| && s[i] == x
    ensures multiset(s)[x] >= |idx|
    decreases |s|
  {
    if |s| == 0 {
      assert forall i :: i in idx ==> false;
      assert idx == {};
    } else {
      var n := |s| - 1;
      var rest := idx - {n};
      OccurrencesAtLeast(s[..n], x, rest);
      assert s == s[..n] + [s[n]];
      assert |idx| <= |rest| + 1;
    }
  }

  /** On a board where every key is on two cards, no three cards share a key. */
  lemma AtMostTwoAlike(board: seq<Card>, i: nat, j: nat, k: nat)
    requires KeysPaired(board)
    requires i < |board| && j < |board| && k < |board| && i != j && j != k && i != k
    ensures !(board[i].symbol == board[j].symbol == board[k].symbol)
  {
    if board[i].symbol == board[j].symbol == board[k].symbol {
      assert |{i, j, k}| == 3;
      OccurrencesAtLeast(Symbols(board), board[i].symbol, {i, j, k});
    }
  }

  /** A value occurring at least twice occurs at some other position too. */
  lemma OtherOccurrence<T>(s: seq<T>, k: nat)
    requires k < |s| && multiset(s)[s[k]] >= 2
    ensures exists j :: 0 <= j < |s| && j != k && s[j] == s[k]
  {
    var others := s[..k] + s[k + 1..];
    assert s == s[..k] + [s[k]] + s[k + 1..];
    assert multiset(s) == multiset(s[..k]) + multiset{s[k]} + multiset(s[k + 1..]);
    assert multiset(others)[s[k]] >= 1;
    assert s[k] in others;
    var m :| 0 <= m < |others| && others[m] == s[k];
    if m < k {
      assert s[m] == others[m];
    } else {
      assert s[m + 1] == others[m];
    }
  }

  /** On a board where every key is on two cards, every card has a partner:
      another card with its key. */
  lemma PartnerExists(board: seq<Card>, k: nat)
    requires KeysPaired(board) && k < |board|
    ensures exists j :: 0 <= j < |board| && j != k && board[j].symbol == board[k].symbol
  {
    var s := Symbols(board);
    assert multiset(s)[s[k]] == 2;
    OtherOccurrence(s, k);
    var j :| 0 <= j < |s| && j != k && s[j] == s[k];
    assert board[j].symbol == board[k].symbol;
  }
}

=== FILE: round.dfy ===
/** The round controller of js/jogo.js: the global `state` record
    (js/jogo.js:25-33), the board of cards, and the callbacks that change
    them — a card click (`onFlip`), the 450 ms resolve callback, the one-second
    interval, `winGame`, `gameOver` and `resetGame`. Each event is a pure step
    from one game to the next. */
module Round {
  import opened Wrappers
  import opened Catalog
  import opened Shuffling
  import opened Deck

  /** The `state` record. `first` is the board position of the pending card
      (`null` is None); `ticking` says whether the interval stored in
      `state.tick` is live. */
  datatype State = State(
    first: Option<nat>,
    lock: bool,
    pairsLeft: int,
    moves: nat,
    seconds: nat,
    ticking: bool,
    gameOver: bool)

  /** A scheduled 450 ms resolve callback. It captured the second card of a
      turn, the `match` flag computed when it was scheduled, and the board it
      was scheduled on; it reads `state.first` only when it fires. */
  datatype PendingResolve = PendingResolve(card: nat, isMatch: bool, boardId: nat)

  /** Everything the events read and write: the state record, the cards on
      the board, the resolve callbacks not yet fired (oldest first), and a
      number identifying the board currently in the document. */
  datatype Game = Game(state: State, board: seq<Card>, resolves: seq<PendingResolve>, boardId: nat)

  /** The references the game holds point at live cards: `state.first` at a
      card of the current board, and each callback scheduled on the current
      board at one of its cards. A callback from an older board may name any
      position, since its card is no longer in the document; no callback
      names a board that does not exist yet. */
  predicate Valid(g: Game) {
    && (g.state.first.Some? ==> g.state.first.value < |g.board|)
    && (forall p :: p in g.resolves ==> p.boardId <= g.boardId)
    && (forall p :: p in g.resolves && p.boardId == g.boardId ==> p.card < |g.board|)
  }

  /** The state record a round starts with (js/jogo.js:25-33, js/jogo.js:262-270),
      with the interval that `startTimer` then starts. */
  function NewRoundState(): (s: State)
    ensures s.first.None? && !s.lock && !s.gameOver && s.ticking
    ensures s.pairsLeft == PAIRS && s.moves == 0 && s.seconds == 0
  {
    State(None, false, PAIRS, 0, 0, true, false)
  }

  /** Sets the face of one card (`flipUp` / `flipDown`, without the animation). */
  function SetFace(board: seq<Card>, i: nat, up: bool): (r: seq<Card>)
    requires i < |board|
    ensures |r| == |board| && r[i].faceUp == up
    ensures r[i].symbol == board[i].symbol && r[i].index == board[i].index
    ensures forall k :: 0 <= k < |board| && k != i ==> r[k] == board[k]
  {
    board[i := board[i].(faceUp := up)]
  }

  /** `winGame` (js/jogo.js:209-212): unless the round already ended on time,
      stops the interval and locks input. It never sets `gameOver`. */
  function WinGame(s: State): (s': State)
    ensures s.gameOver ==> s' == s
    ensures !s.gameOver ==> !s'.ticking && s'.lock && !s'.gameOver
    ensures s'.first == s.first && s'.pairsLeft == s.pairsLeft
    ensures s'.moves == s.moves && s'.seconds == s.seconds
  {
    if s.gameOver then s else s.(ticking := false, lock := true)
  }

  /** `gameOver` (js/jogo.js:228-233): ends the round on time, stops the
      interval and locks input, whatever the state was. */
  function GameOver(s: State): (s': State)
    ensures s'.gameOver && s'.lock && !s'.ticking
    ensures s'.first == s.first && s'.pairsLeft == s.pairsLeft
    ensures s'.moves == s.moves && s'.seconds == s.seconds
  {
    s.(gameOver := true, ticking := false, lock := true)
  }

  /** `onFlip(card)` for the card at position i (js/jogo.js:120-146). */
  function OnFlip(g: Game, i: nat): (g': Game)
    requires Valid(g) && i < |g.board|
    ensures Valid(g')
    // Input is ignored while locked, after a timeout, and on a face-up card.
    ensures g.state.lock || g.state.gameOver || g.board[i].faceUp ==> g' == g
    // Otherwise the card turns face up and nothing else on the board moves.
    ensures !(g.state.lock || g.state.gameOver || g.board[i].faceUp) ==>
      && g'.board == SetFace(g.board, i, true)
      && g'.state.pairsLeft == g.state.pairsLeft
      && g'.state.seconds == g.state.seconds
      && g'.state.ticking == g.state.ticking
      && !g'.state.gameOver
      && g'.boardId == g.boardId
    // The first card of a turn becomes the pending card; no move is counted.
    ensures !(g.state.lock || g.state.gameOver || g.board[i].faceUp) && g.state.first.None? ==>
      && g'.state.first == Some(i)
      && g'.state.moves == g.state.moves
      && !g'.state.lock
      && g'.resolves == g.resolves
    // The second card completes the turn: input locks, one move is counted,
    // and a resolve is scheduled that remembers whether the two keys agree.
    ensures !(g.state.lock || g.state.gameOver || g.board[i].faceUp) && g.state.first.Some? ==>
      && g'.state.first == g.state.first
      && g'.state.moves == g.state.moves + 1
      && g'.state.lock
      && |g'.resolves| == |g.resolves| + 1
      && g'.resolves[..|g.resolves|] == g.resolves
      && g'.resolves[|g.resolves|].card == i
      && g'.resolves[|g.resolves|].boardId == g.boardId
      && (g'.resolves[|g.resolves|].isMatch <==>
            g.board[g.state.first.value].symbol == g.board[i].symbol && g.state.first.value != i)
  {
    if g.state.lock || g.state.gameOver then g
    else if g.board[i].faceUp then g
    else
      var board := SetFace(g.board, i, true);
      match g.state.first
      case None =>
        g.(state := g.state.(first := Some(i)), board := board)
      case Some(f) =>
        var isMatch := g.board[f].symbol == g.board[i].symbol && f != i;
        var s := g.state.(lock := true, moves := g.state.moves + 1);
        Game(s, board, g.resolves + [PendingResolve(i, isMatch, g.boardId)], g.boardId)
  }

  /** The oldest pending resolve callback fires (js/jogo.js:147-164). It uses
      the `match` flag it captured and the `state.first` of the moment. When
      `state.first` is null, `celebrateMatch` / `shakeMismatch` dereference it
      and the callback stops with a TypeError before touching the state. */
  function Resolve(g: Game): (g': Game)
    requires Valid(g) && |g.resolves| > 0
    ensures Valid(g')
    ensures g'.resolves == g.resolves[1..] && g'.boardId == g.boardId
    ensures g'.state.moves == g.state.moves && g'.state.seconds == g.state.seconds
    ensures g'.state.gameOver == g.state.gameOver
    // No pending card: the callback aborts and changes nothing else.
    ensures g.state.first.None? ==> g'.state == g.state && g'.board == g.board
    // Otherwise the turn ends: no pending card and input unlocked, even after
    // a win or a timeout.
    ensures g.state.first.Some? ==> g'.state.first.None? && !g'.state.lock
    // A match keeps the board and counts one pair; reaching exactly zero pairs
    // calls `winGame`, which stops the interval unless the round already timed out.
    ensures g.state.first.Some? && g.resolves[0].isMatch ==>
      && g'.board == g.board
      && g'.state.pairsLeft == g.state.pairsLeft - 1
      && (g'.state.ticking <==> g.state.ticking && (g'.state.pairsLeft != 0 || g.state.gameOver))
    // A mismatch turns the pending card face down, and the second card too if
    // it is still on the board, each keeping its key and index; the pair
    // count and the interval are untouched.
    ensures g.state.first.Some? && !g.resolves[0].isMatch ==>
      && g'.state.pairsLeft == g.state.pairsLeft
      && g'.state.ticking == g.state.ticking
      && |g'.board| == |g.board|
      && g'.board[g.state.first.value] == g.board[g.state.first.value].(faceUp := false)
      && (g.resolves[0].boardId == g.boardId ==>
            g'.board[g.resolves[0].card] == g.board[g.resolves[0].card].(faceUp := false))
      && (forall k :: (0 <= k < |g.board| && k != g.state.first.value &&
                        (g.resolves[0].boardId != g.boardId || k != g.resolves[0].card)) ==>
                         g'.board[k] == g.board[k])
  {
    var p := g.resolves[0];
    var rest := g.resolves[1..];
    assert forall q :: q in rest ==> q in g.resolves;
    match g.state.first
    case None =>
      g.(resolves := rest)
    case Some(f) =>
      if p.isMatch then
        var s := g.state.(pairsLeft := g.state.pairsLeft - 1);
        var s' := if s.pairsLeft == 0 then WinGame(s) else s;
        Game(s'.(first := None, lock := false), g.board, rest, g.boardId)
      else
        var board := SetFace(g.board, f, false);
        var board' := if p.boardId == g.boardId then SetFace(board, p.card, false) else board;
        Game(g.state.(first := None, lock := false), board', rest, g.boardId)
  }

  /** One firing of the `setInterval` body (js/jogo.js:109-115): a second
      passes, and the first tick at or past the limit ends the round. Without
      a live interval nothing fires. */
  function Tick(g: Game): (g': Game)
    requires Valid(g)
    ensures Valid(g')
    ensures g'.board == g.board && g'.resolves == g.resolves && g'.boardId == g.boardId
    ensures !g.state.ticking ==> g' == g
    ensures g.state.ticking ==> g'.state.seconds == g.state.seconds + 1
    ensures g.state.ticking && g'.state.seconds >= TIME_LIMIT && !g.state.gameOver ==>
      g'.state.gameOver && g'.state.lock && !g'.state.ticking
    ensures g.state.ticking && (g'.state.seconds < TIME_LIMIT || g.state.gameOver) ==>
      g'.state == g.state.(seconds := g.state.seconds + 1)
    ensures g'.state.first == g.state.first && g'.state.pairsLeft == g.state.pairsLeft
    ensures g'.state.moves == g.state.moves
  {
    if !g.state.ticking then g
    else
      var s := g.state.(seconds := g.state.seconds + 1);
      if s.seconds >= TIME_LIMIT && !s.gameOver then g.(state := GameOver(s)) else g.(state := s)
  }

  /** `resetGame` (js/jogo.js:260-277): a fresh state record, a freshly shuffled
      board and a new interval. Resolve callbacks already scheduled are not
      cancelled; they stay queued against the old board. */
  function ResetGame(g: Game, choices: seq<nat>): (g': Game)
    requires Valid(g)
    requires ValidChoices(choices, BOARD_SIZE)
    ensures Valid(g')
    ensures g'.state == NewRoundState()
    ensures g'.board == BuildBoard(choices)
    ensures g'.resolves == g.resolves && g'.boardId == g.boardId + 1
  {
    Game(NewRoundState(), BuildBoard(choices), g.resolves, g.boardId + 1)
  }

  /** The page bootstrap (js/jogo.js:285-286): the first board and interval. */
  function Start(choices: seq<nat>): (g: Game)
    requires ValidChoices(choices, BOARD_SIZE)
    ensures Valid(g)
    ensures g.state == NewRoundState() && g.board == BuildBoard(choices)
    ensures g.resolves == []
  {
    Game(NewRoundState(), BuildBoard(choices), [], 0)
  }

  /** The events the page reacts to. */
  datatype Event =
    | Click(card: nat)
    | ResolveFires
    | IntervalFires
    | ResetClicked(choices: seq<nat>)

  predicate WellFormedEvent(e: Event) {
    e.ResetClicked? ==> ValidChoices(e.choices, BOARD_SIZE)
  }

  /** Dispatches one event. A click can only come from a card on the board,
      and a resolve only fires when one is scheduled. */
  function Step(g: Game, e: Event): (g': Game)
    requires Valid(g) && WellFormedEvent(e)
    ensures Valid(g')
  {
    match e
    case Click(i) => if i < |g.board| then OnFlip(g, i) else g
    case ResolveFires => if |g.resolves| > 0 then Resolve(g) else g
    case IntervalFires => Tick(g)
    case ResetClicked(choices) => ResetGame(g, choices)
  }

  /** The game after a sequence of events, applied in order. */
  function Run(g: Game, events: seq<Event>): (g': Game)
    requires Valid(g) && forall e :: e in events ==> WellFormedEvent(e)
    ensures Valid(g')
    decreases |events|
  {
    if events == [] then g else Run(Step(g, events[0]), events[1..])
  }
}

=== FILE: round_invariant.dfy ===
/** What a round guarantees while no reset overtakes a pending resolve
    callback, and what goes wrong when one does. */
module RoundInvariant {
  import opened Wrappers
  import opened Catalog
  import opened Shuffling
  import opened Deck
  import opened Round

  /** Number of face-up cards. */
  function CountUp(board: seq<Card>): nat
  {
    if |board| == 0 then 0 else (if board[0].faceUp then 1 else 0) + CountUp(board[1..])
  }

  /** At most every card is face up, and exactly then all of them are. */
  lemma {:induction false} CountUpBound(board: seq<Card>)
    ensures CountUp(board) <= |board|
    ensures CountUp(board) == |board| <==> forall k :: 0 <= k < |board| ==> board[k].faceUp
  {
    if |board| > 0 {
      CountUpBound(board[1..]);
      if CountUp(board) == |board| {
        forall k | 0 <= k < |board|
          ensures board[k].faceUp
        {
          if k > 0 {
            assert board[1..][k - 1] == board[k];
          }
        }
      }
    }
  }

  /** A board with every card face down has no face-up card. */
  lemma {:induction false} CountUpAllDown(board: seq<Card>)
    requires forall k :: 0 <= k < |board| ==> !board[k].faceUp
    ensures CountUp(board) == 0
  {
    if |board| > 0 {
      CountUpAllDown(board[1..]);
    }
  }

  /** Turning one card changes the count by one exactly when its face changes. */
  lemma {:induction false} CountUpSetFace(board: seq<Card>, i: nat, up: bool)
    requires i < |board|
    ensures CountUp(SetFace(board, i, up)) ==
      CountUp(board) - (if board[i].faceUp then 1 else 0) + (if up then 1 else 0)
  {
    var r := SetFace(board, i, up);
    if i > 0 {
      assert r[1..] == SetFace(board[1..], i - 1, up);
      CountUpSetFace(board[1..], i - 1, up);
    } else {
      assert r[1..] == board[1..];
    }
  }

  /** Turning a card keeps every card's key. */
  lemma SymbolsSetFace(board: seq<Card>, i: nat, up: bool)
    requires i < |board|
    ensures Symbols(SetFace(board, i, up)) == Symbols(board)
  {
    assert forall k :: 0 <= k < |board| ==> Symbols(SetFace(board, i, up))[k] == Symbols(board)[k];
  }

  /** The pending resolve belongs to the turn in progress: it was scheduled on
      this board, for a face-up card other than the pending one, and its
      `match` flag says whether the two keys agree. */
  predicate ResolveOfThisTurn(g: Game, p: PendingResolve)
    requires Valid(g)
  {
    && p.boardId == g.boardId
    && g.state.first.Some?
    && p.card < |g.board|
    && p.card != g.state.first.value
    && g.board[p.card].faceUp
    && (p.isMatch <==> g.board[g.state.first.value].symbol == g.board[p.card].symbol)
  }

  /** A card of a matched pair: face up, and neither the pending card nor the
      card of a resolve still to fire. */
  predicate Matched(g: Game, k: nat)
  {
    && k < |g.board|
    && g.board[k].faceUp
    && g.state.first != Some(k)
    && (forall p :: p in g.resolves ==> p.card != k)
  }

  /** Two distinct cards with the same key are matched together or not at
      all. With every key on exactly two cards, each matched card has a
      matched partner (MatchedHasPartner). */
  predicate MatchedInPairs(g: Game)
  {
    forall j, k ::
      (0 <= j < |g.board| && 0 <= k < |g.board| && j != k && g.board[j].symbol == g.board[k].symbol) ==>
        (Matched(g, j) <==> Matched(g, k))
  }

  /** The round invariant:
      - the board has 18 cards numbered by position, and the pending card is face up;
      - at most one resolve is pending, it belongs to this turn, and input is
        locked exactly while one is pending or after a timeout;
      - every key is on exactly two cards, the face-up cards are the pending
        card, the second card of a turn being resolved and the matched cards,
        and the two cards of a key are matched together or not at all;
      - the interval runs exactly while the round is neither lost on time nor
        won, and the round is lost on time exactly when the clock reached the limit. */
  predicate Inv(g: Game) {
    && Valid(g)
    && |g.board| == BOARD_SIZE
    && (forall k :: 0 <= k < |g.board| ==> g.board[k].index == k)
    && KeysPaired(g.board)
    && MatchedInPairs(g)
    && (g.state.first.Some? ==> g.board[g.state.first.value].faceUp)
    && 0 <= g.state.pairsLeft <= PAIRS
    && |g.resolves| <= 1
    && (|g.resolves| == 1 ==> ResolveOfThisTurn(g, g.resolves[0]) && g.state.lock)
    && (g.state.lock && !g.state.gameOver ==> |g.resolves| == 1)
    && CountUp(g.board) ==
         2 * (PAIRS - g.state.pairsLeft) + (if g.state.first.Some? then 1 else 0) + |g.resolves|
    && (g.state.ticking <==> !g.state.gameOver && g.state.pairsLeft > 0)
    && g.state.seconds <= TIME_LIMIT
    && (g.state.gameOver <==> g.state.seconds == TIME_LIMIT)
  }

  /** With every card face down no card is matched, so the two cards of
      each key are trivially matched together. */
  lemma AllDownPairs(g: Game)
    requires forall k :: 0 <= k < |g.board| ==> !g.board[k].faceUp
    ensures MatchedInPairs(g)
  {
  }

  /** A fresh round on a face-down board numbered by position, with every key
      on two cards and nothing pending, satisfies the invariant. */
  lemma FreshRoundInv(g: Game)
    requires Valid(g) && g.state == NewRoundState() && g.resolves == []
    requires |g.board| == BOARD_SIZE && KeysPaired(g.board)
    requires forall k :: 0 <= k < |g.board| ==> g.board[k].index == k && !g.board[k].faceUp
    ensures Inv(g)
  {
    CountUpAllDown(g.board);
    AllDownPairs(g);
  }

  /** The first board of the page satisfies the invariant. */
  lemma StartInv(choices: seq<nat>)
    requires ValidChoices(choices, BOARD_SIZE)
    ensures Inv(Start(choices))
  {
    BoardKeysPaired(choices);
    FreshRoundInv(Start(choices));
  }

  /** `resetGame` with no resolve in flight starts a round satisfying the
      invariant: no pending card, unlocked, nine pairs left, no move, clock at
      zero, not over, the interval running, and a fresh face-down board. */
  lemma {:induction false} ResetInv(g: Game, choices: seq<nat>)
    requires Valid(g) && g.resolves == [] && ValidChoices(choices, BOARD_SIZE)
    ensures Inv(ResetGame(g, choices))
    ensures var s := ResetGame(g, choices).state;
      s.first.None? && !s.lock && s.pairsLeft == PAIRS && s.moves == 0 && s.seconds == 0 && !s.gameOver
    ensures CountUp(ResetGame(g, choices).board) == 0
  {
    BoardKeysPaired(choices);
    FreshRoundInv(ResetGame(g, choices));
    CountUpAllDown(ResetGame(g, choices).board);
  }

  /** When the keys stay put and the matched cards stay the same, the two
      cards of a key are still matched together. */
  lemma SameMatchedKeepsPairs(g: Game, g': Game)
    requires MatchedInPairs(g) && Symbols(g'.board) == Symbols(g.board)
    requires forall k: nat :: Matched(g', k) <==> Matched(g, k)
    ensures MatchedInPairs(g')
  {
    forall j, k | 0 <= j < |g'.board| && 0 <= k < |g'.board| && j != k &&
      g'.board[j].symbol == g'.board[k].symbol
      ensures Matched(g', j) <==> Matched(g', k)
    {
      assert Symbols(g'.board)[j] == Symbols(g.board)[j];
      assert Symbols(g'.board)[k] == Symbols(g.board)[k];
    }
  }

  /** A click neither makes nor unmakes a matched card: the card it turns
      becomes the pending card or the card of the new resolve. */
  lemma FlipKeepsMatched(g: Game, i: nat)
    requires Valid(g) && i < |g.board|
    requires g.state.first.Some? ==> g.board[g.state.first.value].faceUp
    requires g.state.lock || g.state.gameOver || g.resolves == []
    ensures forall k: nat :: Matched(OnFlip(g, i), k) <==> Matched(g, k)
  {
    var g' := OnFlip(g, i);
    if !(g.state.lock || g.state.gameOver || g.board[i].faceUp) {
      forall k: nat
        ensures Matched(g', k) <==> Matched(g, k)
      {
        if k != i && k < |g.board| {
          assert g'.board[k] == g.board[k];
        }
      }
    }
  }

  /** A click keeps the invariant. */
  lemma {:induction false} FlipInv(g: Game, i: nat)
    requires Inv(g) && i < |g.board|
    ensures Inv(OnFlip(g, i))
  {
    FlipKeepsMatched(g, i);
    if !(g.state.lock || g.state.gameOver || g.board[i].faceUp) {
      CountUpSetFace(g.board, i, true);
      SymbolsSetFace(g.board, i, true);
    }
    SameMatchedKeepsPairs(g, OnFlip(g, i));
  }

  /** When a match resolves, the pending card and the second card become
      matched together, and no third card shares their key. */
  lemma ResolveMatchPairs(g: Game)
    requires Valid(g) && |g.resolves| == 1 && ResolveOfThisTurn(g, g.resolves[0])
    requires g.resolves[0].isMatch && g.board[g.state.first.value].faceUp
    requires KeysPaired(g.board) && MatchedInPairs(g)
    ensures MatchedInPairs(Resolve(g))
  {
    var g' := Resolve(g);
    var f, c := g.state.first.value, g.resolves[0].card;
    assert g'.resolves == [];
    forall j, k | 0 <= j < |g'.board| && 0 <= k < |g'.board| && j != k &&
      g'.board[j].symbol == g'.board[k].symbol
      ensures Matched(g', j) <==> Matched(g', k)
    {
      if (j == f || j == c) != (k == f || k == c) {
        var o := if j == f || j == c then k else j;
        AtMostTwoAlike(g.board, f, c, o);
      } else if j != f && j != c {
        assert Matched(g, j) <==> Matched(g', j);
        assert Matched(g, k) <==> Matched(g', k);
      }
    }
  }

  /** When a mismatch resolves, both of its cards turn face down, so the
      matched cards are exactly those of before. */
  lemma ResolveMismatchKeepsMatched(g: Game)
    requires Valid(g) && |g.resolves| == 1 && ResolveOfThisTurn(g, g.resolves[0])
    requires !g.resolves[0].isMatch
    ensures forall k: nat :: Matched(Resolve(g), k) <==> Matched(g, k)
  {
    var g' := Resolve(g);
    var f, c := g.state.first.value, g.resolves[0].card;
    assert g'.resolves == [];
    forall k: nat
      ensures Matched(g', k) <==> Matched(g, k)
    {
      if k != f && k != c && k < |g.board| {
        assert g'.board[k] == g.board[k];
      }
    }
  }

  /** A resolve of the current turn keeps the invariant. */
  lemma {:induction false} ResolveInv(g: Game)
    requires Inv(g) && |g.resolves| > 0
    ensures Inv(Resolve(g))
  {
    var p := g.resolves[0];
    var f := g.state.first.value;
    CountUpBound(g.board);
    if p.isMatch {
      ResolveMatchPairs(g);
    } else {
      var b := SetFace(g.board, f, false);
      CountUpSetFace(g.board, f, false);
      CountUpSetFace(b, p.card, false);
      SymbolsSetFace(g.board, f, false);
      SymbolsSetFace(b, p.card, false);
      ResolveMismatchKeepsMatched(g);
      SameMatchedKeepsPairs(g, Resolve(g));
    }
  }

  /** A tick keeps the invariant. */
  lemma TickInv(g: Game)
    requires Inv(g)
    ensures Inv(Tick(g))
  {
    assert forall k: nat :: Matched(Tick(g), k) <==> Matched(g, k);
    SameMatchedKeepsPairs(g, Tick(g));
  }

  /** Every event keeps the invariant, except a reset while a resolve is
      still pending (see StaleResolveCorruptsRound). */
  lemma {:induction false} StepInv(g: Game, e: Event)
    requires Inv(g) && WellFormedEvent(e)
    requires e.ResetClicked? ==> g.resolves == []
    ensures Inv(Step(g, e))
  {
    match e
    case Click(i) =>
      if i < |g.board| {
        FlipInv(g, i);
      }
    case ResolveFires =>
      if |g.resolves| > 0 {
        ResolveInv(g);
      }
    case IntervalFires =>
      TickInv(g);
    case ResetClicked(choices) =>
      ResetInv(g, choices);
  }

  /** No reset happens while a resolve callback is still pending. */
  predicate NoResetWhilePending(g: Game, events: seq<Event>)
    requires Valid(g) && forall e :: e in events ==> WellFormedEvent(e)
    decreases |events|
  {
    events == [] ||
    ((events[0].ResetClicked? ==> g.resolves == []) && NoResetWhilePending(Step(g, events[0]), events[1..]))
  }

  /** Any run that never resets under a pending resolve keeps the invariant;
      in particular every game reachable that way from the page bootstrap. */
  lemma {:induction false} RunInv(g: Game, events: seq<Event>)
    requires Inv(g) && forall e :: e in events ==> WellFormedEvent(e)
    requires NoResetWhilePending(g, events)
    ensures Inv(Run(g, events))
    decreases |events|
  {
    if events != [] {
      StepInv(g, events[0]);
      RunInv(Step(g, events[0]), events[1..]);
    }
  }

  /** One complete turn: with a pending card f and no lock, clicking a
      face-down card i counts one move and locks input; when the resolve
      fires, the pair is kept face up and counted exactly when the keys agree,
      and otherwise both cards turn face down with the pair count unchanged.
      Either way the pending card is cleared and input unlocked, and the
      interval stops exactly when no pair is left. */
  lemma {:induction false} TurnOutcome(g: Game, i: nat)
    requires Inv(g) && !g.state.lock && !g.state.gameOver
    requires g.state.first.Some? && i < |g.board| && !g.board[i].faceUp
    ensures var g1 := OnFlip(g, i);
      g1.state.lock && g1.state.moves == g.state.moves + 1 && |g1.resolves| == 1
    ensures var f := g.state.first.value;
      var g2 := Resolve(OnFlip(g, i));
      && g2.state.first.None? && !g2.state.lock
      && g2.state.moves == g.state.moves + 1
      && (g.board[f].symbol == g.board[i].symbol ==>
            g2.state.pairsLeft == g.state.pairsLeft - 1 && g2.board[f].faceUp && g2.board[i].faceUp)
      && (g.board[f].symbol != g.board[i].symbol ==>
            g2.state.pairsLeft == g.state.pairsLeft && !g2.board[f].faceUp && !g2.board[i].faceUp)
      && (g2.state.ticking <==> g2.state.pairsLeft != 0)
      && !g2.state.gameOver
  {
    var g1 := OnFlip(g, i);
    FlipInv(g, i);
    assert g.resolves == [];
    assert g1.resolves[0] == PendingResolve(i, g.board[g.state.first.value].symbol == g.board[i].symbol, g.boardId);
    ResolveInv(g1);
  }

  /** A won round (no pair left and not lost on time) is over for good: every
      card is face up, nothing is pending, the interval is stopped, and every
      event other than a reset leaves the game exactly as it is — in
      particular no later tick can end it on time. */
  lemma {:induction false} WonIsTerminal(g: Game, e: Event)
    requires Inv(g) && g.state.pairsLeft == 0 && !g.state.gameOver
    requires WellFormedEvent(e) && !e.ResetClicked?
    ensures forall k :: 0 <= k < |g.board| ==> g.board[k].faceUp
    ensures g.state.first.None? && g.resolves == [] && !g.state.ticking && !g.state.lock
    ensures Step(g, e) == g
  {
    CountUpBound(g.board);
  }

  /** A round lost on time stays lost: the interval never restarts, the clock
      stays at the limit, clicks change nothing, and a resolve still in flight
      cannot turn it into a win (`winGame` returns at once). */
  lemma {:induction false} TimedOutIsTerminal(g: Game, e: Event)
    requires Inv(g) && g.state.gameOver
    requires WellFormedEvent(e) && !e.ResetClicked?
    ensures var g' := Step(g, e);
      && g'.state.gameOver && !g'.state.ticking
      && g'.state.seconds == TIME_LIMIT && g'.state.moves == g.state.moves
    ensures e.Click? ==> Step(g, e) == g
  {
  }

  /** Under the invariant the face-up cards outside the turn in progress
      really are pairs: every matched card has a distinct matched card with
      the same key. */
  lemma MatchedHasPartner(g: Game, k: nat)
    requires Inv(g) && Matched(g, k)
    ensures exists k' ::
      0 <= k' < |g.board| && k' != k && Matched(g, k') && g.board[k'].symbol == g.board[k].symbol
  {
    PartnerExists(g.board, k);
    var j :| 0 <= j < |g.board| && j != k && g.board[j].symbol == g.board[k].symbol;
    assert Matched(g, j);
  }

  /** A matched card is never turned back or made selectable again before
      the next reset. */
  lemma {:induction false} MatchedStaysMatched(g: Game, e: Event, k: nat)
    requires Inv(g) && WellFormedEvent(e) && !e.ResetClicked?
    requires Matched(g, k)
    ensures Inv(Step(g, e)) && Matched(Step(g, e), k)
  {
    StepInv(g, e);
    if e.Click? && e.card < |g.board| {
      var g' := Step(g, e);
      assert forall p :: p in g'.resolves ==> p in g.resolves || p.card == e.card;
    }
  }

  /** Outside a reset, the cards keep their keys and positions: the board a
      round was dealt is the board it is played on. This holds in every
      game, including one where a callback from before a reset fires. */
  lemma StepKeepsKeys(g: Game, e: Event)
    requires Valid(g) && WellFormedEvent(e) && !e.ResetClicked?
    ensures |Step(g, e).board| == |g.board|
    ensures Symbols(Step(g, e).board) == Symbols(g.board)
    ensures forall k :: 0 <= k < |g.board| ==> Step(g, e).board[k].index == g.board[k].index
  {
    match e
    case Click(i) =>
      if i < |g.board| && !(g.state.lock || g.state.gameOver || g.board[i].faceUp) {
        SymbolsSetFace(g.board, i, true);
      }
    case ResolveFires =>
      if |g.resolves| > 0 && g.state.first.Some? && !g.resolves[0].isMatch {
        var b := SetFace(g.board, g.state.first.value, false);
        SymbolsSetFace(g.board, g.state.first.value, false);
        if g.resolves[0].boardId == g.boardId {
          SymbolsSetFace(b, g.resolves[0].card, false);
        }
      }
    case IntervalFires =>
  }

  /** Under the round invariant the cards are also numbered by position after
      every event other than a reset. */
  lemma StepKeepsPositions(g: Game, e: Event)
    requires Inv(g) && WellFormedEvent(e) && !e.ResetClicked?
    ensures forall k :: 0 <= k < |Step(g, e).board| ==> Step(g, e).board[k].index == k
  {
    StepKeepsKeys(g, e);
  }

  /** Any reset, callbacks pending or not, deals 18 cards with none face up
      and keeps the pending callbacks. The card-0 clause is the special case
      StaleResolveOnFreshRound needs for its first click. */
  lemma ResetDealsFaceDown(g: Game, choices: seq<nat>)
    requires Valid(g) && ValidChoices(choices, BOARD_SIZE)
    ensures var g1 := ResetGame(g, choices);
      && |g1.board| == BOARD_SIZE
      && !g1.board[0].faceUp
      && CountUp(g1.board) == 0
      && g1.resolves == g.resolves
  {
    CountUpAllDown(ResetGame(g, choices).board);
  }

  /** The first click of a round, on a face-down card 0, makes it pending. */
  lemma FirstClickOfRound(g: Game)
    requires Valid(g) && g.state == NewRoundState() && |g.board| > 0 && !g.board[0].faceUp
    ensures var g' := OnFlip(g, 0);
      && g'.state == NewRoundState().(first := Some(0))
      && g'.resolves == g.resolves
      && CountUp(g'.board) == CountUp(g.board) + 1
  {
    CountUpSetFace(g.board, 0, true);
  }

  /** A match resolve that fires while the pending card is a lone card just
      turned on a fresh board counts a pair and clears that card. */
  lemma StaleMatchResolve(g: Game)
    requires Valid(g) && |g.resolves| == 1 && g.resolves[0].isMatch
    requires g.state == NewRoundState().(first := Some(0)) && CountUp(g.board) == 1
    ensures var g' := Resolve(g);
      && g'.state.pairsLeft == PAIRS - 1
      && g'.state.first.None?
      && CountUp(g'.board) == 1
      && |g'.resolves| == 0
  {
  }

  /** A round with one card face up, none pending and a pair counted is not
      one the invariant allows: the counted pair should have two cards up. */
  lemma LoneCardBreaksInv(g: Game)
    requires g.state.pairsLeft == PAIRS - 1 && g.state.first.None?
    requires CountUp(g.board) == 1 && |g.resolves| == 0
    ensures !Inv(g)
  {
  }

  /** On a fresh round whose only pending callback is a match from before,
      turning card 0 and letting the callback fire counts a pair that was
      never found and forgets the card just turned. */
  lemma StaleResolveOnFreshRound(g: Game)
    requires Valid(g) && g.state == NewRoundState()
    requires |g.board| > 0 && !g.board[0].faceUp && CountUp(g.board) == 0
    requires |g.resolves| == 1 && g.resolves[0].isMatch
    ensures var g' := Resolve(OnFlip(g, 0));
      && g'.state.pairsLeft == PAIRS - 1
      && g'.state.first.None?
      && CountUp(g'.board) == 1
      && !Inv(g')
  {
    FirstClickOfRound(g);
    StaleMatchResolve(OnFlip(g, 0));
    LoneCardBreaksInv(Resolve(OnFlip(g, 0)));
  }

  /** The stale-callback anomaly: the 450 ms callback is never cancelled. If
      the player resets while a matching pair is being resolved and then
      turns one card of the new board, the old callback fires against the new
      round: it counts a pair that was never found and forgets the card just
      turned, so the new round breaks the invariant — one card face up, no
      card pending, and eight pairs left. */
  lemma StaleResolveCorruptsRound(g: Game, choices: seq<nat>)
    requires Valid(g) && |g.resolves| == 1 && g.resolves[0].isMatch
    requires ValidChoices(choices, BOARD_SIZE)
    ensures Resolve(OnFlip(ResetGame(g, choices), 0)).state.pairsLeft == PAIRS - 1
    ensures !Inv(Resolve(OnFlip(ResetGame(g, choices), 0)))
  {
    ResetDealsFaceDown(g, choices);
    StaleResolveOnFreshRound(ResetGame(g, choices));
  }
}

=== FILE: shuffling.dfy ===
/** The in-place Fisher–Yates shuffle of js/jogo.js:37-43, with `Math.random`
    replaced by an explicit sequence of choices. */
module Shuffling {

  /** A choice sequence for a list of n elements: the loop step for index i
      swaps with `choices[i]`, which `Math.floor(Math.random() * (i + 1))`
      keeps in [0, i]. Entry 0 is never read (the loop stops at i == 1). */
  predicate ValidChoices(choices: seq<nat>, n: nat) {
    |choices| == n && forall i :: 0 <= i < n ==> choices[i] <= i
  }

  /** `[arr[i], arr[j]] = [arr[j], arr[i]]` */
  function Swap<T>(a: seq<T>, i: nat, j: nat): (r: seq<T>)
    requires i < |a| && j < |a|
    ensures |r| == |a|
    ensures r[i] == a[j] && r[j] == a[i]
    ensures forall k :: 0 <= k < |a| && k != i && k != j ==> r[k] == a[k]
  {
    a[i := a[j]][j := a[i]]
  }

  lemma SwapPermutes<T>(a: seq<T>, i: nat, j: nat)
    requires i < |a| && j < |a|
    ensures multiset(Swap(a, i, j)) == multiset(a)
  {
  }

  /** The loop steps for indices i, i-1, ..., 1, applied to a. */
  function Steps<T>(a: seq<T>, choices: seq<nat>, i: nat): (r: seq<T>)
    requires i < |a| && ValidChoices(choices, |a|)
    ensures |r| == |a|
    decreases i
  {
    if i == 0 then a
    else Steps(Swap(a, i, choices[i]), choices, i - 1)
  }

  /** Every run of the loop only permutes the list. */
  lemma {:induction false} StepsPermutes<T>(a: seq<T>, choices: seq<nat>, i: nat)
    requires i < |a| && ValidChoices(choices, |a|)
    ensures multiset(Steps(a, choices, i)) == multiset(a)
    decreases i
  {
    if i > 0 {
      var b := Swap(a, i, choices[i]);
      SwapPermutes(a, i, choices[i]);
      StepsPermutes(b, choices, i - 1);
      assert Steps(a, choices, i) == Steps(b, choices, i - 1);
    }
  }

  /** The functional reading of `shuffle(arr)`: the list the loop leaves behind. */
  function Shuffled<T>(a: seq<T>, choices: seq<nat>): (r: seq<T>)
    requires ValidChoices(choices, |a|)
    ensures |r| == |a|
    ensures multiset(r) == multiset(a)
  {
    if |a| == 0 then a
    else
      StepsPermutes(a, choices, |a| - 1);
      Steps(a, choices, |a| - 1)
  }

  /** `shuffle(arr)` as written: a countdown loop swapping `arr[i]` with
      `arr[choices[i]]`. It returns exactly the reference result and a
      permutation of its input. */
  method Shuffle<T>(arr: seq<T>, choices: seq<nat>) returns (r: seq<T>)
    requires ValidChoices(choices, |arr|)
    ensures r == Shuffled(arr, choices)
    ensures |r| == |arr| && multiset(r) == multiset(arr)
  {
    r := arr;
    if |arr| == 0 {
      return;
    }
    var i := |arr| - 1;
    while i > 0
      invariant 0 <= i < |arr| == |r|
      invariant Steps(r, choices, i) == Steps(arr, choices, |arr| - 1)
    {
      var j := choices[i];
      r := r[i := r[j]][j := r[i]];
      i := i - 1;
    }
  }

  /** The loop steps for indices i..1 read only choices[1..i]. */
  lemma {:induction false} StepsReadsChoicesUpTo<T>(a: seq<T>, c1: seq<nat>, c2: seq<nat>, i: nat)
    requires i < |a| && ValidChoices(c1, |a|) && ValidChoices(c2, |a|)
    requires forall k :: 0 <= k <= i ==> c1[k] == c2[k]
    ensures Steps(a, c1, i) == Steps(a, c2, i)
    decreases i
  {
    if i > 0 {
      StepsReadsChoicesUpTo(Swap(a, i, c1[i]), c1, c2, i - 1);
    }
  }

  /** Some position j <= i holds the element the target puts at i. */
  lemma FindSwapPartner<T>(a: seq<T>, target: seq<T>, i: nat) returns (j: nat)
    requires i < |a| == |target|
    requires multiset(a[..i + 1]) == multiset(target[..i + 1])
    ensures j <= i && a[j] == target[i]
  {
    assert target[..i + 1][i] == target[i];
    assert target[i] in multiset(a[..i + 1]);
    j :| 0 <= j <= i && a[..i + 1][j] == target[i];
  }

  /** A swap inside the first i+1 positions permutes that prefix. */
  lemma SwapPermutesPrefix<T>(a: seq<T>, i: nat, j: nat)
    requires j <= i < |a|
    ensures multiset(Swap(a, i, j)[..i + 1]) == multiset(a[..i + 1])
  {
    assert Swap(a, i, j)[..i + 1] == Swap(a[..i + 1], i, j);
    SwapPermutes(a[..i + 1], i, j);
  }

  /** Two lists with the same multiset and the same last element agree as
      multisets without that element. */
  lemma DropSameLast<T>(x: seq<T>, y: seq<T>)
    requires |x| == |y| > 0 && x[|x| - 1] == y[|y| - 1]
    requires multiset(x) == multiset(y)
    ensures multiset(x[..|x| - 1]) == multiset(y[..|y| - 1])
  {
    var v := x[|x| - 1];
    assert x == x[..|x| - 1] + [v];
    assert y == y[..|y| - 1] + [v];
    assert multiset(x[..|x| - 1]) == multiset(x) - multiset{v};
    assert multiset(y[..|y| - 1]) == multiset(y) - multiset{v};
  }

  /** Swapping that element into position i fixes one more position and
      leaves the remaining prefixes permutations of each other. */
  lemma SwapIntoPlace<T>(a: seq<T>, target: seq<T>, i: nat, j: nat)
    requires 0 < i < |a| == |target| && j <= i && a[j] == target[i]
    requires a[i + 1..] == target[i + 1..]
    requires multiset(a[..i + 1]) == multiset(target[..i + 1])
    ensures Swap(a, i, j)[i..] == target[i..]
    ensures multiset(Swap(a, i, j)[..i]) == multiset(target[..i])
  {
    var b := Swap(a, i, j);
    SwapPermutesPrefix(a, i, j);
    DropSameLast(b[..i + 1], target[..i + 1]);
    assert b[..i + 1][..i] == b[..i];
    assert target[..i + 1][..i] == target[..i];
    assert b[i..] == [b[i]] + b[i + 1..];
    assert target[i..] == [target[i]] + target[i + 1..];
  }

  /** Lists agreeing after position 0 that have the same first element as
      multisets are equal. */
  lemma SameFirstAndRest<T>(a: seq<T>, target: seq<T>)
    requires 0 < |a| == |target| && a[1..] == target[1..]
    requires multiset(a[..1]) == multiset(target[..1])
    ensures a == target
  {
    assert a[..1] == [a[0]] && target[..1] == [target[0]];
    assert a[0] in multiset(target[..1]);
    assert a == [a[0]] + a[1..] && target == [target[0]] + target[1..];
  }

  /** Fixing the choice for step i to j: the steps i..1 first swap i with j,
      then continue with the remaining choices unchanged. */
  lemma ChooseAt<T>(a: seq<T>, c: seq<nat>, i: nat, j: nat)
    requires j <= i && 0 < i < |a| && ValidChoices(c, |a|)
    ensures ValidChoices(c[i := j], |a|)
    ensures Steps(a, c[i := j], i) == Steps(Swap(a, i, j), c, i - 1)
  {
    var c' := c[i := j];
    assert forall k :: 0 <= k < |a| && k != i ==> c'[k] == c[k];
    StepsReadsChoicesUpTo(Swap(a, i, j), c', c, i - 1);
  }

  /** Every arrangement of the first i+1 elements is produced by the loop
      steps i..1 for some choice sequence. */
  lemma {:induction false} StepsReachEveryOrder<T>(a: seq<T>, target: seq<T>, i: nat) returns (c: seq<nat>)
    requires i < |a| == |target|
    requires a[i + 1..] == target[i + 1..]
    requires multiset(a[..i + 1]) == multiset(target[..i + 1])
    ensures ValidChoices(c, |a|) && Steps(a, c, i) == target
    decreases i
  {
    if i == 0 {
      SameFirstAndRest(a, target);
      c := seq(|a|, k => 0);
    } else {
      var j := FindSwapPartner(a, target, i);
      SwapIntoPlace(a, target, i, j);
      var b := Swap(a, i, j);
      var c' := StepsReachEveryOrder(b, target, i - 1);
      c := c'[i := j];
      ChooseAt(a, c', i, j);
    }
  }

  /** Every ordering of the input is a possible result of the shuffle: for
      any permutation of arr there is a sequence of random choices that
      produces it. (Uniformity is a property of `Math.random`, not modelled.) */
  lemma ShuffleReachesEveryOrder<T>(arr: seq<T>, target: seq<T>)
    requires multiset(arr) == multiset(target)
    ensures exists choices :: ValidChoices(choices, |arr|) && Shuffled(arr, choices) == target
  {
    assert |arr| == |multiset(arr)| == |target|;
    if |arr| == 0 {
      assert ValidChoices([], 0) && Shuffled(arr, []) == target;
    } else {
      assert arr[..|arr|] == arr && target[..|target|] == target;
      var c := StepsReachEveryOrder(arr, target, |arr| - 1);
      assert Shuffled(arr, c) == target;
    }
  }

  /** Applies f to every element. */
  function Map<T, U>(f: T -> U, s: seq<T>): (r: seq<U>)
    ensures |r| == |s|
    ensures forall k :: 0 <= k < |s| ==> r[k] == f(s[k])
  {
    seq(|s|, k requires 0 <= k < |s| => f(s[k]))
  }

  /** The shuffle moves elements without looking at them, so it commutes with
      any per-element projection (for instance taking a card's key). */
  lemma {:induction false} StepsCommuteWithMap<T, U>(f: T -> U, a: seq<T>, choices: seq<nat>, i: nat)
    requires i < |a| && ValidChoices(choices, |a|)
    ensures Map(f, Steps(a, choices, i)) == Steps(Map(f, a), choices, i)
    decreases i
  {
    if i > 0 {
      var j := choices[i];
      assert Map(f, Swap(a, i, j)) == Swap(Map(f, a), i, j);
      StepsCommuteWithMap(f, Swap(a, i, j), choices, i - 1);
    }
  }

  lemma ShuffledCommutesWithMap<T, U>(f: T -> U, a: seq<T>, choices: seq<nat>)
    requires ValidChoices(choices, |a|)
    ensures Map(f, Shuffled(a, choices)) == Shuffled(Map(f, a), choices)
  {
    if |a| > 0 {
      StepsCommuteWithMap(f, a, choices, |a| - 1);
    }
  }
}

=== FILE: time_format.dfy ===
/** `formatMMSS` and the remaining-time arithmetic of `updateTimerLabel`
    (js/jogo.js:88-101). */
module TimeFormat {
  import opened Wrappers
  import opened Catalog

  predicate IsDigit(c: char) {
    '0' <= c <= '9'
  }

  predicate AllDigits(s: string) {
    forall k :: 0 <= k < |s| ==> IsDigit(s[k])
  }

  function DigitValue(c: char): (d: nat)
    requires IsDigit(c)
    ensures d < 10
  {
    c as int - '0' as int
  }

  function DigitChar(d: nat): (c: char)
    requires d < 10
    ensures IsDigit(c) && DigitValue(c) == d
  {
    ('0' as int + d) as char
  }

  /** `String(n)` for a non-negative integer: its decimal digits. */
  function Decimal(n: nat): (s: string)
    ensures 1 <= |s| && AllDigits(s)
    ensures n < 10 <==> |s| == 1
    // No leading zero: the first digit is '0' only for n == 0 itself.
    ensures s[0] == '0' <==> n == 0
    decreases n
  {
    if n < 10 then [DigitChar(n)] else Decimal(n / 10) + [DigitChar(n % 10)]
  }

  /** The number a digit string denotes (most significant digit first). */
  function ValueOf(s: string): nat
    requires AllDigits(s)
    decreases |s|
  {
    if |s| == 0 then 0 else 10 * ValueOf(s[..|s| - 1]) + DigitValue(s[|s| - 1])
  }

  /** Reading back the decimal representation gives the number. */
  lemma {:induction false} DecimalRoundTrip(n: nat)
    ensures ValueOf(Decimal(n)) == n
    decreases n
  {
    if n >= 10 {
      var s := Decimal(n);
      assert s[..|s| - 1] == Decimal(n / 10);
      DecimalRoundTrip(n / 10);
    }
  }

  /** `s.padStart(width, fill)`: fill characters in front of s up to width. */
  function PadStart(s: string, width: nat, fill: char): (r: string)
    ensures |r| == if |s| >= width then |s| else width
    ensures r[|r| - |s|..] == s
    ensures forall k :: 0 <= k < |r| - |s| ==> r[k] == fill
  {
    if |s| >= width then s else seq(width - |s|, _ => fill) + s
  }

  /** Leading zeros do not change the value of a digit string. */
  lemma {:induction false} LeadingZeros(zeros: string, s: string)
    requires forall k :: 0 <= k < |zeros| ==> zeros[k] == '0'
    requires AllDigits(s)
    ensures AllDigits(zeros + s)
    ensures ValueOf(zeros + s) == ValueOf(s)
    decreases |s|
  {
    if |s| == 0 {
      assert zeros + s == zeros;
      ZerosAreZero(zeros);
    } else {
      assert (zeros + s)[..|zeros + s| - 1] == zeros + s[..|s| - 1];
      LeadingZeros(zeros, s[..|s| - 1]);
    }
  }

  lemma {:induction false} ZerosAreZero(zeros: string)
    requires forall k :: 0 <= k < |zeros| ==> zeros[k] == '0'
    ensures AllDigits(zeros) && ValueOf(zeros) == 0
    decreases |zeros|
  {
    if |zeros| > 0 {
      ZerosAreZero(zeros[..|zeros| - 1]);
    }
  }

  /** The minutes field of an `MM:SS` string: everything before the colon. */
  function MinutesField(s: string): string
    requires |s| >= 3
  {
    s[..|s| - 3]
  }

  /** The seconds field of an `MM:SS` string: the two characters after the colon. */
  function SecondsField(s: string): string
    requires |s| >= 3
  {
    s[|s| - 2..]
  }

  /** The decimal representation has at most two digits below 100 and at
      least three from 100 on. */
  lemma DecimalWidth(n: nat)
    ensures n < 100 <==> |Decimal(n)| <= 2
  {
    if n >= 10 {
      assert |Decimal(n)| == |Decimal(n / 10)| + 1;
    }
  }

  /** Below 6000 seconds the minute count is below 100. */
  lemma MinutesBelowHundred(total: nat)
    ensures total < 6000 <==> total / 60 < 100
  {
  }

  /** `${m}:${s}`: joins a minutes field and a two-character seconds field. */
  function JoinClock(mm: string, ss: string): (r: string)
    requires |ss| == 2
    ensures |r| == |mm| + 3 && r[|r| - 3] == ':'
    ensures MinutesField(r) == mm && SecondsField(r) == ss
  {
    var r := mm + ":" + ss;
    assert MinutesField(r) == mm;
    assert SecondsField(r) == ss;
    r
  }

  /** `formatMMSS(total)`: minutes and seconds, each padded to at least two
      digits. The seconds field always has exactly two digits; below 100
      minutes the whole label has the form DD:DD. */
  function FormatMMSS(total: nat): (r: string)
    ensures |r| >= 5 && r[|r| - 3] == ':'
    ensures AllDigits(MinutesField(r)) && AllDigits(SecondsField(r))
    ensures total < 6000 <==> |r| == 5
  {
    var minutes := Decimal(total / 60);
    var seconds := Decimal(total % 60);
    DecimalWidth(total / 60);
    DecimalWidth(total % 60);
    MinutesBelowHundred(total);
    JoinClock(PadStart(minutes, 2, '0'), PadStart(seconds, 2, '0'))
  }

  /** Reads an `MM:SS` label back to a number of seconds; None unless both
      fields are digits and the seconds field is below 60. */
  function ParseMMSS(s: string): (r: Option<nat>)
  {
    if |s| < 4 || s[|s| - 3] != ':' || !AllDigits(MinutesField(s)) || !AllDigits(SecondsField(s)) then None
    else if ValueOf(SecondsField(s)) >= 60 then None
    else Some(60 * ValueOf(MinutesField(s)) + ValueOf(SecondsField(s)))
  }

  /** The minutes field reads back as `total / 60`, the seconds field as
      `total % 60` (so 60 * MM + SS == total and SS < 60), and parsing the
      label gives total back. */
  lemma {:induction false} FormatRoundTrip(total: nat)
    ensures ValueOf(MinutesField(FormatMMSS(total))) == total / 60
    ensures ValueOf(SecondsField(FormatMMSS(total))) == total % 60 < 60
    ensures ParseMMSS(FormatMMSS(total)) == Some(total)
  {
    var minutes, seconds := total / 60, total % 60;
    assert 60 * minutes + seconds == total;
    FormatFields(total);
    PaddedDecimal(minutes);
    PaddedDecimal(seconds);
    var r := FormatMMSS(total);
    assert ParseMMSS(r) == Some(60 * minutes + seconds);
  }

  /** The two fields of `formatMMSS(total)` are the padded minute and second counts. */
  lemma FormatFields(total: nat)
    ensures MinutesField(FormatMMSS(total)) == PadStart(Decimal(total / 60), 2, '0')
    ensures SecondsField(FormatMMSS(total)) == PadStart(Decimal(total % 60), 2, '0')
  {
    DecimalWidth(total % 60);
  }

  /** A zero-padded decimal representation reads back as the number. */
  lemma PaddedDecimal(n: nat)
    ensures AllDigits(PadStart(Decimal(n), 2, '0'))
    ensures ValueOf(PadStart(Decimal(n), 2, '0')) == n
  {
    PaddedValue(Decimal(n));
    DecimalRoundTrip(n);
  }

  /** Padding a digit string with zeros keeps its value. */
  lemma PaddedValue(s: string)
    requires AllDigits(s)
    ensures AllDigits(PadStart(s, 2, '0'))
    ensures ValueOf(PadStart(s, 2, '0')) == ValueOf(s)
  {
    var p := PadStart(s, 2, '0');
    assert p == p[..|p| - |s|] + s;
    LeadingZeros(p[..|p| - |s|], s);
  }

  /** `Math.max(0, TIME_LIMIT - elapsed)`: the seconds left on the clock. */
  function Remaining(elapsed: nat): (r: nat)
    ensures r <= TIME_LIMIT
    ensures elapsed <= TIME_LIMIT ==> r + elapsed == TIME_LIMIT
    ensures elapsed >= TIME_LIMIT ==> r == 0
  {
    if TIME_LIMIT - elapsed > 0 then TIME_LIMIT - elapsed else 0
  }

  /** The text `updateTimerLabel(elapsed)` writes: always 12 characters, and
      its clock part reads back as the remaining time. */
  function TimerLabel(elapsed: nat): (r: string)
    ensures |r| == 12 && r[..7] == "Tempo: "
    ensures ParseMMSS(r[7..]) == Some(Remaining(elapsed))
  {
    var clock := FormatMMSS(Remaining(elapsed));
    FormatRoundTrip(Remaining(elapsed));
    var r := "Tempo: " + clock;
    assert r[7..] == clock;
    r
  }
}

=== FILE: wrappers.dfy ===
/** The optional value used wherever the game stores `null` or may fail to read a value. */
module Wrappers {

  datatype Option<+T> = None | Some(value: T)
}
